=== FILE: README.md ===
# Scroll-driven media scrubbing, modelled in Dafny

This project models the scroll-to-media scrubbing part of a landing page's
script (`js/main.js`). As the page scrolls, each registered element's bounding
rectangle becomes a progress value in [0, 1]. That value drives one of two
scrubbers:

- a **video scrubber**, which seeks a video element to `duration * progress`
  and skips seeks of 0.05 s or less;
- an **image-sequence scrubber**, which picks frame `floor(progress * (count - 1))`
  of a numbered set of `.webp` frames and draws it "cover"-fitted onto a canvas.
  It draws only when that frame has decoded and is not already on the canvas.

On wide screens the video scrubbers are built at start-up. On narrow screens a
canvas scrubber is built lazily the first time its canvas nears the viewport,
and never a second time. If the user asks for reduced motion, nothing is set up.

Every operation is a pure step function over an immutable state record. It
returns the new state and the effect it performs: a seek, or a draw with the
placement it computes. Time and geometry are exact `real`s, and the source's
`Math.floor` is Dafny's `Floor`. Frame loading is a sequence of load and error
events chosen by the environment.

Modules, one per component of the script:

- `ScrollProgress` (`progress.dfy`): the visibility gate and progress mapping of `handleScroll`.
- `VideoScrubbing` (`video.dfy`): `VideoScrubber`, i.e. construction, the metadata callback and `update`.
- `FrameNames` (`frame_names.dfy`): decimal printing, `padStart(3, '0')` and the frame file names.
- `CoverFit` (`cover.dfy`): the placement arithmetic of `ImageSequenceScrubber.draw`.
- `ImageSequence` (`sequence.dfy`): the `ImageSequenceScrubber` state and its constructor, `update`, `resize` and load/error handlers.
- `SequenceProperties` (`sequence_properties.dfy`): runs of events and one-way scroll sweeps, with the lemmas about them.
- `ScrollDriver` (`driver.dfy`): `handleScroll` over the active list, start-up, and the one-shot lazy activation.
- `Wrappers` (`wrappers.dfy`): `Option`, and `Present`, which keeps the values of the present options in order.
- `RealArith` (`arith.dfy`): ordering facts about products and floors of reals, used by the geometry and progress proofs.

## Model

| member | source | states |
|---|---|---|
| ScrollProgress.Sample | js/main.js:47-53 | No update is issued exactly when the element's bottom is above the viewport, or its top is below it, or the total travel is zero. Elements exactly on an edge are still updated. Otherwise the progress lies in [0,1]. |
| ScrollProgress.Clamp01 | js/main.js:53 | `Math.max(0, Math.min(1, x))` lies in [0,1], is x itself when x is already in [0,1], 0 when x is negative and 1 when x exceeds 1. |
| ScrollProgress.SampleIsTravelFraction | js/main.js:50-53 | A progress that is issued times the total travel `H + E` equals the distance covered `H - top`, so for a visible element the clamp never alters the ratio. |
| ScrollProgress.EnteringIsZero | js/main.js:50-53 | With a positive total travel, an element whose top sits on the viewport's bottom edge (`top = H`) gets progress exactly 0. |
| ScrollProgress.LeavingIsOne | js/main.js:50-53 | With a positive total travel, an element whose bottom sits on the viewport's top edge (`top = -E`) gets progress exactly 1. |
| ScrollProgress.ProgressMonotone | js/main.js:50-53 | Moving an element up the screen (a smaller `top`) never lowers its progress. |
| VideoScrubbing.Update | js/main.js:132-139 | Unless the duration is truthy and finite, nothing changes and no seek happens. When it is, a seek to `duration * progress` happens exactly when the gap exceeds 0.05 s. Afterwards the position is always within 0.05 s of the target, and the duration never changes. |
| VideoScrubbing.UpdateIdempotent | js/main.js:132-139 | A second update with the same progress never seeks and leaves the state alone, so repeated scroll ticks cause at most one seek. |
| VideoScrubbing.OnMetadata | js/main.js:118-122 | The metadata callback stores the element's duration. It seeks to 0 exactly when that duration is usable and the position is more than 0.05 s from 0. |
| VideoScrubbing.NewVideo | js/main.js:114-130 | Without metadata, the scrubber starts with duration 0 and issues no seek; the `video.load()` that this branch calls is not modelled (see Left out), so the model keeps the given position there. With metadata, construction is exactly the metadata callback on a scrubber of duration 0, so the duration is the element's. A seek happens exactly when metadata is in, its duration is usable and the position is more than 0.05 s from 0. That seek goes to 0. When metadata is in and no seek happens, the position is untouched. |
| VideoScrubbing.BeforeMetadataInert | js/main.js:116-133 | Until metadata arrives, the stored duration 0 makes every update inert, whatever the progress. |
| FrameNames.Decimal | js/main.js:176 | `i.toString()` of a non-negative integer is a non-empty string of decimal digits, one digit long exactly when the number is below 10. `DecimalRoundTrip` reads it back to the number. |
| FrameNames.PadStart | js/main.js:176 | `padStart(3, '0')` returns a string of at least the requested width, ending with the original string, with only `'0'` characters in front of it. A string already that long is returned unchanged. |
| FrameNames.FrameName | js/main.js:177 | The name of frame i begins with the directory followed by `/frame_`, ends with `.webp`, and has at least three characters (the padded number) between them. `FrameNameShape` fixes those characters and `FrameNameInjective` shows that distinct frames get distinct names. |
| FrameNames.DecimalRoundTrip | js/main.js:176 | Reading back the decimal digits `toString` produces gives the original number. |
| FrameNames.PaddedNumber | js/main.js:176 | For 1 ≤ i ≤ 999 the padded number has exactly three characters, all digits, and they read back as i. |
| FrameNames.FrameNameShape | js/main.js:176-177 | For 1 ≤ i ≤ 999, the name of frame i is `path + "/frame_" + d + ".webp"`, where `d` has three characters, is all digits and decodes to i. |
| FrameNames.FrameNameInjective | js/main.js:176-177 | Two frame numbers with the same name under one path are equal, for every number including those above 999. |
| CoverFit.Cover | js/main.js:208-227 | Nothing is drawn exactly when the canvas width or height is 0. Otherwise the drawn size covers the canvas (`dw ≥ w`, `dh ≥ h`) and keeps the image's aspect ratio. The offsets are `(w - dw)/2` and `(h - dh)/2`, at least one offset is 0, and the frame is flush with the canvas on at least one axis. |
| CoverFit.CoverIsScaledImage | js/main.js:213-227 | Both branches of `draw` agree with one reference: the image is scaled by `max(w/iw, h/ih)`. |
| ImageSequence.FrameIndex | js/main.js:196-197 | For count ≥ 1 and any progress, the index lies in [0, count-1]. Progress ≤ 0 gives 0 and progress ≥ 1 gives count-1. |
| ImageSequence.FrameIndexIsFloor | js/main.js:196-197 | For progress in [0,1], the index is the floor of `progress * (count-1)`, so the clamp never alters it there. |
| ImageSequence.Update | js/main.js:195-206 | A draw happens exactly when the selected frame has decoded and differs from the frame on the canvas. A draw sets `currentFrame` to that frame and uses the cover placement for the current canvas size. Without a draw the state is unchanged. The scrubber invariant is preserved. |
| ImageSequence.Resize | js/main.js:161-171 | Resize records the new canvas size and changes nothing else. It redraws exactly when a frame is on the canvas. The redraw shows that frame with its cover placement at the new size. |
| ImageSequence.Resolve | js/main.js:179-189 | A load and an error each add exactly 1 to `loadedCount` and end that frame's load. Path, names, count and canvas size are untouched. A decoded frame 0 triggers a draw exactly when frame 0 is not already shown. That draw shows frame 0 with its cover placement for the current canvas size, and sets `currentFrame` to 0. Nothing else draws. The invariant is preserved, including that `isLoaded` holds exactly when `loadedCount = count`. |
| ImageSequence.FrameRequests | js/main.js:174-177 | The loading loop over frames `1..count` issues exactly one request per frame. `NewSequenceNames` states which name the k-th request carries. |
| ImageSequence.NewSequenceNames | js/main.js:174-191 | The constructor's loading loop requests one name per frame, and the k-th request (from 0) is the name of frame k+1. |
| SequenceProperties.RequestsNeverChange | js/main.js:143-206 | No scroll, resize, load or error event changes the frame directory or the requested names. |
| ImageSequence.NewSequence | js/main.js:143-159 | A fresh scrubber satisfies the invariant: every frame pending and requested by its name, counter 0, not loaded, no frame on the canvas. |
| SequenceProperties.CounterCountsEndedLoads | js/main.js:179-189 | Over any run of events, `loadedCount` grows by exactly the number of load and error events. Scrolls and resizes never change it. |
| SequenceProperties.EndedFrameStaysEnded | js/main.js:179-189 | Once a frame has decoded or failed, no later event changes its status. |
| SequenceProperties.IsLoadedIffNonePending | js/main.js:182-188 | `isLoaded` holds exactly when no frame is still loading. Failed frames count toward completion like decoded ones. |
| SequenceProperties.AllEndedMeansLoaded | js/main.js:179-189 | After a run in which every frame has decoded or failed, the scrubber is marked fully loaded, even if some frames failed. |
| SequenceProperties.FailedNeverDrawn | js/main.js:186-206 | A frame that failed is never drawn by any later scroll, resize or load event, and it stays failed. |
| SequenceProperties.DrawIsDecoded | js/main.js:161-206 | Every draw any event performs shows a frame that has decoded. This includes the resize redraw, whose guard only checks `complete`. |
| SequenceProperties.UpdateTwiceDrawsOnce | js/main.js:199-205 | Two consecutive updates with the same progress draw at most once. The second leaves the state unchanged. |
| SequenceProperties.ResizeIdempotent | js/main.js:161-171 | Resizing twice to the same size gives the same state and the same redraw as resizing once. |
| SequenceProperties.FrameIndexMonotone | js/main.js:196-197 | A larger progress never selects an earlier frame. |
| SequenceProperties.SingleFrameIndex | js/main.js:196-197 | With one frame, every progress selects frame 0. |
| SequenceProperties.TenFramesExample | js/main.js:196-197 | With ten frames, progress 0.55 selects frame 4. |
| SequenceProperties.SweepShape | js/main.js:195-206 | During scrolling with non-decreasing progress, the drawn frames strictly increase. None is before the first progress's frame, and the first differs from the frame already shown. |
| SequenceProperties.SweepDrawsAtMostCount | js/main.js:195-206 | Scrolling with non-decreasing progress, with no load events during the scroll, causes at most `count` draws, whatever frames had loaded before it. |
| SequenceProperties.LateFirstFrameRedraws | js/main.js:179-181 | Load events during the scroll lift that bound. With three frames, frames 1 and 2 decoded, frame 0 still loading and nothing on the canvas, the first scroll tick draws frame 1. Frame 0's load handler then puts frame 0 over frame 1, and the next scroll ticks draw frames 1 and 2, so a one-way scroll sees four draws: 1, 0, 1, 2. |
| SequenceProperties.LateFirstFrameReachable | js/main.js:143-189 | The starting state of that example is reached from a fresh three-frame scrubber when frames 2 and 3 load before frame 1, with no draw on the way. |
| SequenceProperties.FreshUpdateDrawsNothing | js/main.js:79-85 | The `update(0)` that lazy activation issues right after construction draws nothing and changes nothing, because no frame has decoded yet. |
| ScrollDriver.UpdateScrubber | js/main.js:55 | Dispatching `update` keeps the scrubber's kind. The new state is that kind's update result. An effect is reported exactly when that kind's update seeks or draws, and it is that seek or that draw. |
| ScrollDriver.Visit | js/main.js:41-55 | One turn of the loop keeps the element. A scrubber whose sample is "no update" is untouched and has no effect. Any effect is tagged with the element. |
| ScrollDriver.VisitUpdates | js/main.js:51-55 | For a sampled element the scrubber becomes its update with the progress. The turn's effect is present exactly when that update's effect is, and is that effect tagged with the element. |
| ScrollDriver.HandleScroll | js/main.js:40-57 | Each active scrubber keeps its place and becomes the result of its own turn. The effects are those of the turns that had one, in list order, so there are never more effects than scrubbers. |
| ScrollDriver.EffectsFromSampledElements | js/main.js:47-55 | Every effect of a scroll tick happened on an element whose sample let its scrubber update. |
| ScrollDriver.UpdateScrubberSettles | js/main.js:132-139 | For either kind of scrubber, a second `update` with the same progress has no effect and leaves the scrubber as the first left it. |
| ScrollDriver.HandleScrollSettles | js/main.js:40-57 | Running the scroll handler a second time with unchanged geometry seeks nothing, draws nothing and changes no scrubber. |
| ScrollDriver.ScrollKeepsLazyInvariant | js/main.js:40-57 | On a narrow screen a scroll tick keeps the lazy-activation invariant: every scrubber still serves its own initialized canvas with that canvas's frames, no canvas gains a second scrubber, and every initialized canvas keeps one. Together with `OnIntersection`, a canvas scrubber is built at most once however scroll ticks and observer callbacks interleave. |
| ScrollDriver.OnIntersection | js/main.js:73-89 | A canvas becomes initialized exactly when it was already initialized or some entry reports it intersecting. Existing registrations are untouched. Each new registration serves a canvas that was not initialized before, and its scrubber is exactly the one the constructor builds from that canvas, because `update(0)` draws nothing on it. Every active scrubber serves one initialized canvas with that canvas's frames, no canvas gets two scrubbers, and every initialized canvas has one. When every intersecting entry names an already-initialized canvas, the page is left exactly as it was. |
| ScrollDriver.Observe | js/main.js:74-87 | One entry of the observer callback keeps the lazy-activation invariant. It raises the entry's canvas flag exactly when the entry is intersecting, leaves every other flag, the mode and the canvases alone, keeps the existing registrations, and appends exactly one scrubber when the canvas was intersecting and not yet initialized, none otherwise. |
| ScrollDriver.Activate | js/main.js:77-85 | Activating a canvas that is not yet initialized flags it and appends exactly the freshly built scrubber for it. The lazy-activation invariant is kept. |
| ScrollDriver.FlagStep | js/main.js:75-78 | After each entry, the one-shot flags are raised for exactly the canvases that some entry so far has reported intersecting. |
| ScrollDriver.Admit | js/main.js:77-83 | Flagging a canvas that was not yet initialized and appending its new scrubber keeps the lazy-activation invariant. |
| ScrollDriver.Construct | js/main.js:63-67 | Constructing the scrubber for video k registers it under element k with the state its constructor leaves. The constructor seeks exactly when metadata is in, its duration is usable and the position is more than 0.05 s from 0. That seek goes to 0. |
| ScrollDriver.RegisterVideos | js/main.js:63-68 | One video scrubber is registered per video element, in document order, each exactly as its construction leaves it. The seeks are exactly the constructors' seeks, in document order. |
| ScrollDriver.Start | js/main.js:32-92 | With reduced motion requested, nothing is active and nothing happens. On a wide screen, scrubber k serves video k and is that video's freshly constructed scrubber after one turn of the scroll handler. The effects are the constructors' seeks followed by the initial scroll tick's effects. On a narrow screen, nothing is active yet, no canvas is initialized, and the lazy-activation invariant holds. |

## Left out

- Browser plumbing is not modelled: event listeners, `requestAnimationFrame`, `IntersectionObserver` and its 200px margin, `getBoundingClientRect`, `matchMedia`, and the canvas calls `scale`, `clearRect` and `drawImage`. Rectangles, viewport height, canvas size, screen class and intersection entries are inputs. Seeks and draws are returned effects.
- Each scroll event schedules its own `handleScroll` run for the next animation frame (js/main.js:59); nothing merges them. The model has one run per call of `ScrollDriver.HandleScroll`. Several runs queued before one paint all read the same geometry, and `ScrollDriver.HandleScrollSettles` shows that every run after the first seeks nothing, draws nothing and changes no scrubber.
- Image loads are modelled per scrubber: `SequenceProperties.Run` applies an environment-chosen sequence of scroll, resize, load and error events to one `ImageSequence` state, and each frame's load ends at most once (`CanResolve`), as the browser guarantees. Video metadata is modelled only as the single step `VideoScrubbing.OnMetadata` on one scrubber. No page-level step delivers late metadata to a registered video scrubber, or a frame's load to a registered canvas scrubber: `ScrollDriver` covers scroll ticks, start-up and lazy activation only.
- `draw` reads the canvas's `clientWidth` and `clientHeight` at draw time. The model uses the size recorded at construction and at the last `resize`. This assumes the canvas's CSS size changes only together with a window resize.
- A frame counts as drawable only after its load event. In a browser, a cached image can report `complete` with a positive `naturalWidth` before its `onload` runs, and an `update` in that window would draw it. `FreshUpdateDrawsNothing`, and the fresh-scrubber clause of `OnIntersection`, rely on this simplification.
- Device-pixel-ratio scaling of the canvas backing store in `resize` is not modelled. Only the CSS size, which `draw` uses, is kept.
- Numbers are exact reals, with no IEEE rounding. The viewport height and element heights are taken as non-negative. When both are 0 for a visible element, JavaScript computes a NaN progress, and both scrubbers then ignore the update. The model treats that case as no update.
- A `data-frames-count` that is missing, unparsable (NaN) or below 1 is excluded: the frame count must be at least 1. With count 0, the script selects index 0 of an empty image list, so it does nothing.
- VideoScrubbing.NewVideo: when metadata is not in yet, the constructor also calls `video.load()` (js/main.js:128). The media element load algorithm then restarts resource selection and, when the element's network state is not empty, resets the playback position to 0. That call and its reset are not modelled: the model keeps the position it was given, and `ScrollDriver.Construct` inherits this.
- VideoScrubbing.Update: the readiness test follows the code's `duration && isFinite(duration)` (nonzero and finite), not "positive". A media element never reports a negative duration. Also, the browser clamps an assigned `currentTime` to the media's range. That clamping is not modelled: the model keeps the assigned value.
- The scroll handler runs on scroll events only, not on window resizes. Each canvas scrubber has its own resize handler, modelled as `ImageSequence.Resize`.
- The mobile menu, hero logo, reveal-on-scroll observer (js/main.js:2-29, 94-108) and console logging are not modelled. They are UI wiring with no state worth stating.
- `js/snow.js` and `js/snow-gyro.js` (a random particle animation driven by device tilt) and `tailwind.config.js` (static theme data) are not part of this model.

=== FILE: arith.dfy ===
/** Facts about ordered arithmetic on reals, proved once and used by the geometry and progress proofs. */
module RealArith {

  /** Scaling by a non-negative factor keeps a non-strict order between the products `an` and `bn`. */
  lemma MulMonotone(a: real, b: real, n: real, an: real, bn: real)
    requires a <= b && n >= 0.0 && a * n == an && b * n == bn
    ensures an <= bn
  {
    assert bn - an == (b - a) * n;
    if n > 0.0 && b > a {
      assert (b - a) * n > 0.0;
    }
  }

  /** Scaling by a positive factor keeps a strict order. */
  lemma MulStrict(a: real, b: real, c: real)
    requires a > b && c > 0.0
    ensures a * c > b * c
  {
    assert a * c - b * c == (a - b) * c;
    assert (a - b) * c > 0.0;
  }

  /** A positive factor can be cancelled from both sides of an inequality between products `ac` and `bc`. */
  lemma Cancel(a: real, b: real, c: real, ac: real, bc: real)
    requires c > 0.0 && a * c == ac && b * c == bc && ac <= bc
    ensures a <= b
  {
    if a > b {
      MulStrict(a, b, c);
    }
  }

  /** A non-negative part of a positive whole it does not exceed is a ratio in [0, 1]. */
  lemma RatioInUnit(part: real, whole: real)
    requires whole > 0.0 && 0.0 <= part <= whole
    ensures 0.0 <= part / whole <= 1.0
  {
    var q := part / whole;
    assert q * whole == part;
    Cancel(q, 1.0, whole, part, whole);
    Cancel(0.0, q, whole, 0.0, part);
  }

  /** A ratio `p` with `p * t == v` for a positive `t` is 0 when `v` is 0 and 1 when `v` is `t`. */
  lemma PinnedRatio(p: real, t: real, v: real)
    requires t > 0.0 && p * t == v
    ensures v == 0.0 ==> p == 0.0
    ensures v == t ==> p == 1.0
  {
    if v == 0.0 {
      Cancel(p, 0.0, t, v, 0.0);
      Cancel(0.0, p, t, 0.0, v);
    }
    if v == t {
      Cancel(p, 1.0, t, v, t);
      Cancel(1.0, p, t, t, v);
    }
  }

  lemma FloorAtMost(x: real, k: int)
    requires x <= k as real
    ensures x.Floor <= k
  {
    assert x.Floor as real <= x;
  }

  lemma FloorAtLeast(x: real, k: int)
    requires x >= k as real
    ensures x.Floor >= k
  {
    assert x < x.Floor as real + 1.0;
  }

  lemma FloorMonotone(a: real, b: real)
    requires a <= b
    ensures a.Floor <= b.Floor
  {
    assert a.Floor as real <= a <= b < b.Floor as real + 1.0;
  }
}

=== FILE: cover.dfy ===
/**
 * The "cover" fitting of the image-sequence scrubber's `draw`: the frame is
 * scaled, keeping its aspect ratio, until it covers the whole canvas, and is
 * centred on the axis where it overhangs.
 */
module CoverFit {
  import opened Wrappers
  import RealArith

  /** Where the frame is drawn: top-left corner and drawn size, in CSS pixels. */
  datatype Placement = Placement(x: real, y: real, width: real, height: real)

  /**
   * `draw(img)` on a canvas of client size `w` by `h` for an image of size
   * `iw` by `ih`; None when the canvas has no area, in which case nothing is drawn.
   */
  function Cover(w: nat, h: nat, iw: nat, ih: nat): (r: Option<Placement>)
    requires iw > 0 && ih > 0
    ensures r.None? <==> w == 0 || h == 0
    ensures r.Some? ==> Covers(r.value, w, h, iw, ih)
  {
    if w == 0 || h == 0 then None
    else
      var W, H, IW, IH := w as real, h as real, iw as real, ih as real;
      var ratio := W / H;
      var imageRatio := IW / IH;
      if ratio > imageRatio then
        var dh := W / imageRatio;
        WiderCanvas(W, H, IW, IH);
        Some(Placement(0.0, (H - dh) / 2.0, W, dh))
      else
        var dw := H * imageRatio;
        TallerCanvas(W, H, IW, IH);
        Some(Placement((W - dw) / 2.0, 0.0, dw, H))
  }

  /**
   * What a cover placement promises: the drawn frame reaches every canvas
   * edge, keeps the image's aspect ratio, is centred, and is flush on at
   * least one axis (so it is the smallest such scaling).
   */
  predicate Covers(p: Placement, w: nat, h: nat, iw: nat, ih: nat) {
    && p.width >= w as real && p.height >= h as real
    && p.width * ih as real == p.height * iw as real
    && p.x == (w as real - p.width) / 2.0
    && p.y == (h as real - p.height) / 2.0
    && (p.x == 0.0 || p.y == 0.0)
    && (p.width == w as real || p.height == h as real)
  }

  /** The canvas is relatively wider than the image: scale to the canvas width. */
  lemma WiderCanvas(W: real, H: real, IW: real, IH: real)
    requires W > 0.0 && H > 0.0 && IW > 0.0 && IH > 0.0
    requires W / H > IW / IH
    ensures W / (IW / IH) >= H
    ensures W * IH == W / (IW / IH) * IW
    ensures W / (IW / IH) == W / IW * IH
    ensures W / IW >= H / IH
  {
    var r, a, b := IW / IH, W / IW, H / IH;
    var dh := W / r;
    assert r * IH == IW && a * IW == W && b * IH == H && dh * r == W && W / H * H == W;
    RealArith.MulStrict(W / H, r, H);
    RealArith.Cancel(H, dh, r, H * r, W);
    assert dh * IW == dh * (r * IH) == (dh * r) * IH == W * IH;
    assert (a * IH) * IW == (a * IW) * IH == W * IH;
    RealArith.Cancel(dh, a * IH, IW, W * IH, W * IH);
    RealArith.Cancel(a * IH, dh, IW, W * IH, W * IH);
    RealArith.Cancel(b, a, IH, H, dh);
  }

  /** The canvas is relatively taller than (or as tall as) the image: scale to the canvas height. */
  lemma TallerCanvas(W: real, H: real, IW: real, IH: real)
    requires W > 0.0 && H > 0.0 && IW > 0.0 && IH > 0.0
    requires W / H <= IW / IH
    ensures H * (IW / IH) >= W
    ensures H * (IW / IH) * IH == H * IW
    ensures H * (IW / IH) == H / IH * IW
    ensures H / IH >= W / IW
  {
    var r, a, b := IW / IH, W / IW, H / IH;
    var dw := H * r;
    assert r * IH == IW && a * IW == W && b * IH == H && W / H * H == W;
    RealArith.MulMonotone(W / H, r, H, W, r * H);
    assert dw * IH == H * (r * IH) == H * IW;
    assert (b * IW) * IH == (b * IH) * IW == H * IW;
    RealArith.Cancel(dw, b * IW, IH, H * IW, H * IW);
    RealArith.Cancel(b * IW, dw, IH, H * IW, H * IW);
    RealArith.Cancel(a, b, IW, W, dw);
  }

  /** The scale factor a cover fit applies: the larger of the two per-axis ratios. */
  function CoverScale(w: nat, h: nat, iw: nat, ih: nat): (s: real)
    requires iw > 0 && ih > 0
    ensures s * iw as real >= w as real && s * ih as real >= h as real
  {
    var sx := w as real / iw as real;
    var sy := h as real / ih as real;
    if sx >= sy then sx else sy
  }

  /** The placement `draw` computes is the image scaled by the cover scale, centred. */
  lemma CoverIsScaledImage(w: nat, h: nat, iw: nat, ih: nat)
    requires iw > 0 && ih > 0 && w > 0 && h > 0
    ensures var p := Cover(w, h, iw, ih).value;
            var s := CoverScale(w, h, iw, ih);
            p.width == s * iw as real && p.height == s * ih as real
  {
    var W, H, IW, IH := w as real, h as real, iw as real, ih as real;
    assert (W / IW) * IW == W && (H / IH) * IH == H;
    if W / H > IW / IH {
      WiderCanvas(W, H, IW, IH);
    } else {
      TallerCanvas(W, H, IW, IH);
    }
  }
}

=== FILE: driver.dfy ===
/**
 * The page-level wiring of the scrubbers: the reduced-motion gate, eager
 * video scrubbers on wide screens, one-shot lazy canvas scrubbers on narrow
 * screens, and the scroll handler that pushes progress into every active
 * scrubber.
 */
module ScrollDriver {
  import opened Wrappers
  import opened ScrollProgress
  import VideoScrubbing
  import ImageSequence
  import SequenceProperties

  /** A scrubber of either kind; the scroll handler only calls `update` on it. */
  datatype Scrubber =
    | VideoScrubber(video: VideoScrubbing.Video)
    | SequenceScrubber(sequence: ImageSequence.Sequence)

  predicate ScrubberValid(sc: Scrubber) {
    sc.SequenceScrubber? ==> ImageSequence.Valid(sc.sequence)
  }

  /** What an update does to the page: a seek of a video or a draw on a canvas. */
  datatype Effect = SeekTo(seek: VideoScrubbing.Seek) | DrawOn(draw: ImageSequence.Draw)

  datatype Outcome = Outcome(scrubber: Scrubber, effect: Option<Effect>)

  /** `scrubber.update(progress)` for either kind. */
  function UpdateScrubber(sc: Scrubber, progress: real): (r: Outcome)
    requires ScrubberValid(sc)
    ensures ScrubberValid(r.scrubber)
    ensures r.scrubber.VideoScrubber? <==> sc.VideoScrubber?
    ensures sc.VideoScrubber? ==>
              var step := VideoScrubbing.Update(sc.video, progress);
              && r.scrubber.video == step.state
              && (r.effect.Some? <==> step.seek.Some?)
              && (r.effect.Some? ==> r.effect.value == SeekTo(step.seek.value))
    ensures sc.SequenceScrubber? ==>
              var step := ImageSequence.Update(sc.sequence, progress);
              && r.scrubber.sequence == step.state
              && (r.effect.Some? <==> step.draw.Some?)
              && (r.effect.Some? ==> r.effect.value == DrawOn(step.draw.value))
  {
    match sc
    case VideoScrubber(v) =>
      var step := VideoScrubbing.Update(v, progress);
      Outcome(VideoScrubber(step.state), if step.seek.Some? then Some(SeekTo(step.seek.value)) else None)
    case SequenceScrubber(q) =>
      var step := ImageSequence.Update(q, progress);
      Outcome(SequenceScrubber(step.state), if step.draw.Some? then Some(DrawOn(step.draw.value)) else None)
  }

  /** An active scrubber and the element whose geometry drives it. */
  datatype Registered = Registered(element: nat, scrubber: Scrubber)

  /** An effect and the element it happened on. */
  datatype Tagged = Tagged(element: nat, effect: Effect)

  datatype Tick = Tick(active: seq<Registered>, effects: seq<Tagged>)

  predicate AllValid(active: seq<Registered>) {
    forall k :: 0 <= k < |active| ==> ScrubberValid(active[k].scrubber)
  }

  /** One element's turn in a loop over the active list: its new registration and the effect, if any, tagged with the element. */
  datatype Visited = Visited(item: Registered, effect: Option<Tagged>)

  /** The body of the scroll handler's loop: sample the element and, unless the sample says skip, update its scrubber. */
  function Visit(item: Registered, rect: Rect, viewport: real): (r: Visited)
    requires ScrubberValid(item.scrubber) && Geometry(rect, viewport)
    ensures ScrubberValid(r.item.scrubber) && r.item.element == item.element
    ensures Sample(rect, viewport).None? ==> r == Visited(item, None)
    ensures r.effect.Some? ==> r.effect.value.element == item.element
  {
    match Sample(rect, viewport)
    case None => Visited(item, None)
    case Some(progress) =>
      var out := UpdateScrubber(item.scrubber, progress);
      Visited(Registered(item.element, out.scrubber),
              if out.effect.Some? then Some(Tagged(item.element, out.effect.value)) else None)
  }

  /** A sampled element's scrubber is updated with the progress, and the update's effect is tagged with the element. */
  lemma VisitUpdates(item: Registered, rect: Rect, viewport: real)
    requires ScrubberValid(item.scrubber) && Geometry(rect, viewport)
    ensures Sample(rect, viewport).Some? ==>
              var r := Visit(item, rect, viewport);
              var out := UpdateScrubber(item.scrubber, Sample(rect, viewport).value);
              && r.item.scrubber == out.scrubber
              && (r.effect.Some? <==> out.effect.Some?)
              && (r.effect.Some? ==> r.effect.value == Tagged(item.element, out.effect.value))
  {
  }

  /** The effect slot of every element's turn, in list order. */
  function Visits(active: seq<Registered>, rects: seq<Rect>, viewport: real): (opts: seq<Option<Tagged>>)
    requires |rects| == |active| && AllValid(active)
    requires forall k :: 0 <= k < |rects| ==> Geometry(rects[k], viewport)
    ensures |opts| == |active|
    ensures forall k :: 0 <= k < |active| ==> opts[k] == Visit(active[k], rects[k], viewport).effect
  {
    seq(|active|, k requires 0 <= k < |active| => Visit(active[k], rects[k], viewport).effect)
  }

  lemma VisitsTail(active: seq<Registered>, rects: seq<Rect>, viewport: real)
    requires |rects| == |active| > 0 && AllValid(active)
    requires forall k :: 0 <= k < |rects| ==> Geometry(rects[k], viewport)
    ensures Visits(active, rects, viewport)[1..] == Visits(active[1..], rects[1..], viewport)
  {
  }

  /** The turns over a whole list are the first element's turn followed by the turns over the rest. */
  lemma VisitsCons(active: seq<Registered>, rects: seq<Rect>, viewport: real, rest: seq<Registered>)
    requires |rects| == |active| > 0 && AllValid(active)
    requires forall k :: 0 <= k < |rects| ==> Geometry(rects[k], viewport)
    requires |rest| == |active| - 1
    requires forall k :: 0 <= k < |rest| ==> rest[k] == Visit(active[1..][k], rects[1..][k], viewport).item
    ensures forall k :: 0 <= k < |active| ==>
              ([Visit(active[0], rects[0], viewport).item] + rest)[k] == Visit(active[k], rects[k], viewport).item
  {
    forall k | 1 <= k < |active|
      ensures ([Visit(active[0], rects[0], viewport).item] + rest)[k] == Visit(active[k], rects[k], viewport).item
    {
      assert active[1..][k - 1] == active[k] && rects[1..][k - 1] == rects[k];
    }
  }

  /**
   * `handleScroll()`: for every active scrubber in order, sample its
   * element's rectangle; skip it when the sample says so, otherwise update it
   * with the progress. The effects are those of the turns that had one, in
   * list order.
   */
  function HandleScroll(active: seq<Registered>, rects: seq<Rect>, viewport: real): (r: Tick)
    requires |rects| == |active| && AllValid(active)
    requires forall k :: 0 <= k < |rects| ==> Geometry(rects[k], viewport)
    ensures |r.active| == |active| && AllValid(r.active)
    ensures forall k :: 0 <= k < |active| ==> r.active[k] == Visit(active[k], rects[k], viewport).item
    ensures r.effects == Present(Visits(active, rects, viewport))
    ensures |r.effects| <= |active|
    decreases |active|
  {
    if |active| == 0 then Tick([], [])
    else
      var head := Visit(active[0], rects[0], viewport);
      var rest := HandleScroll(active[1..], rects[1..], viewport);
      VisitsTail(active, rects, viewport);
      var tagged := if head.effect.Some? then [head.effect.value] else [];
      VisitsCons(active, rects, viewport, rest.active);
      Tick([head.item] + rest.active, tagged + rest.effects)
  }

  /** Every effect of a scroll tick happened on an element whose sample let its scrubber update. */
  lemma EffectsFromSampledElements(active: seq<Registered>, rects: seq<Rect>, viewport: real)
    requires |rects| == |active| && AllValid(active)
    requires forall k :: 0 <= k < |rects| ==> Geometry(rects[k], viewport)
    ensures forall e :: e in HandleScroll(active, rects, viewport).effects ==>
              exists k :: 0 <= k < |active| && active[k].element == e.element && Sample(rects[k], viewport).Some?
  {
    var opts := Visits(active, rects, viewport);
    PresentMembers(opts);
    forall e | e in HandleScroll(active, rects, viewport).effects
      ensures exists k :: 0 <= k < |active| && active[k].element == e.element && Sample(rects[k], viewport).Some?
    {
      var k :| 0 <= k < |opts| && opts[k] == Some(e);
      assert Visit(active[k], rects[k], viewport).effect == Some(e);
    }
  }

  /** A second update with the same progress does nothing, for either kind of scrubber. */
  lemma UpdateScrubberSettles(sc: Scrubber, progress: real)
    requires ScrubberValid(sc)
    ensures var once := UpdateScrubber(sc, progress);
            UpdateScrubber(once.scrubber, progress) == Outcome(once.scrubber, None)
  {
  }

  /**
   * Running the scroll handler again with unchanged geometry seeks nothing,
   * draws nothing and changes no scrubber: scroll ticks between which nothing
   * moved cost no media work.
   */
  lemma HandleScrollSettles(active: seq<Registered>, rects: seq<Rect>, viewport: real)
    requires |rects| == |active| && AllValid(active)
    requires forall k :: 0 <= k < |rects| ==> Geometry(rects[k], viewport)
    ensures var once := HandleScroll(active, rects, viewport);
            HandleScroll(once.active, rects, viewport) == Tick(once.active, [])
  {
    var once := HandleScroll(active, rects, viewport);
    var twice := HandleScroll(once.active, rects, viewport);
    forall k | 0 <= k < |active|
      ensures Visit(once.active[k], rects[k], viewport) == Visited(once.active[k], None)
    {
      match Sample(rects[k], viewport)
      case None =>
      case Some(p) =>
        VisitUpdates(active[k], rects[k], viewport);
        VisitUpdates(once.active[k], rects[k], viewport);
        UpdateScrubberSettles(active[k].scrubber, p);
    }
    assert twice.active == once.active;
    PresentOfNothing(Visits(once.active, rects, viewport));
  }

  /** Which setup ran: none (reduced motion requested), eager videos (wide screen), or lazy canvases. */
  datatype Mode = Inert | Desktop | Mobile

  /** A video element as construction finds it: its playback position, and its duration if metadata is in. */
  datatype VideoElement = VideoElement(currentTime: real, metadata: Option<VideoScrubbing.Duration>)

  /** A canvas element: its frame directory and count attributes and its client size. */
  datatype CanvasElement = CanvasElement(path: string, count: nat, view: ImageSequence.View)

  /**
   * The page's scrubbing state: the mode, the canvases the lazy observer
   * watches with their one-shot `initialized` flags, and the active list.
   */
  datatype Page = Page(mode: Mode, canvases: seq<CanvasElement>, initialized: seq<bool>, active: seq<Registered>)

  /** Frame counts are positive integers. */
  predicate CanvasesWellFormed(canvases: seq<CanvasElement>) {
    forall i :: 0 <= i < |canvases| ==> canvases[i].count >= 1
  }

  /**
   * The lazy-activation invariant: every active scrubber drives an
   * initialized canvas with that canvas's frames, no canvas has two
   * scrubbers, and every initialized canvas has one.
   */
  predicate LazyInvariant(page: Page) {
    && CanvasesWellFormed(page.canvases)
    && |page.initialized| == |page.canvases|
    && AllValid(page.active)
    && (forall k :: 0 <= k < |page.active| ==> Serves(page, page.active[k]))
    && (forall a, b :: 0 <= a < b < |page.active| ==> page.active[a].element != page.active[b].element)
    && (forall i :: 0 <= i < |page.initialized| && page.initialized[i] ==> Registers(page.active, i))
  }

  predicate Serves(page: Page, item: Registered) {
    && item.element < |page.canvases|
    && item.element < |page.initialized|
    && page.initialized[item.element]
    && item.scrubber.SequenceScrubber?
    && item.scrubber.sequence.path == page.canvases[item.element].path
    && item.scrubber.sequence.count == page.canvases[item.element].count
  }

  predicate Registers(active: seq<Registered>, i: nat) {
    exists k :: 0 <= k < |active| && active[k].element == i
  }

  /**
   * A scroll tick on a narrow screen keeps the lazy-activation invariant: it
   * rewrites each active scrubber in place, so every canvas keeps exactly the
   * one scrubber it had, and a later observer callback still builds none twice.
   */
  lemma ScrollKeepsLazyInvariant(page: Page, rects: seq<Rect>, viewport: real)
    requires LazyInvariant(page) && |rects| == |page.active|
    requires forall k :: 0 <= k < |rects| ==> Geometry(rects[k], viewport)
    ensures LazyInvariant(page.(active := HandleScroll(page.active, rects, viewport).active))
  {
    var after := HandleScroll(page.active, rects, viewport).active;
    forall k | 0 <= k < |after|
      ensures Serves(page, after[k]) && after[k].element == page.active[k].element
    {
      VisitServes(page, page.active[k], rects[k], viewport);
    }
    RewriteKeepsLazyInvariant(page, after);
  }

  /** Replacing each active scrubber by one that serves the same canvas keeps the lazy-activation invariant. */
  lemma RewriteKeepsLazyInvariant(page: Page, after: seq<Registered>)
    requires LazyInvariant(page) && |after| == |page.active| && AllValid(after)
    requires forall k :: 0 <= k < |after| ==> Serves(page, after[k]) && after[k].element == page.active[k].element
    ensures LazyInvariant(page.(active := after))
  {
    var page' := page.(active := after);
    forall i | 0 <= i < |page'.initialized| && page'.initialized[i]
      ensures Registers(after, i)
    {
      var k :| 0 <= k < |page.active| && page.active[k].element == i;
      assert after[k].element == i;
    }
  }

  /** One turn of the scroll handler leaves a scrubber serving the canvas it served. */
  lemma VisitServes(page: Page, item: Registered, rect: Rect, viewport: real)
    requires ScrubberValid(item.scrubber) && Geometry(rect, viewport) && Serves(page, item)
    ensures Serves(page, Visit(item, rect, viewport).item)
  {
    VisitUpdates(item, rect, viewport);
  }


  /** An intersection observer entry: which canvas, and whether it is within the 200px margin. */
  datatype Entry = Entry(target: nat, isIntersecting: bool)

  /**
   * The observer callback: each intersecting canvas not yet initialized is
   * flagged, gets a scrubber, is added to the active list, and receives
   * `update(0)`. Entries for initialized canvases do nothing.
   */
  method OnIntersection(page: Page, entries: seq<Entry>) returns (page': Page)
    requires page.mode == Mobile && LazyInvariant(page)
    requires forall k :: 0 <= k < |entries| ==> entries[k].target < |page.canvases|
    ensures LazyInvariant(page')
    ensures page'.mode == page.mode && page'.canvases == page.canvases
    ensures |page.active| <= |page'.active| && page'.active[..|page.active|] == page.active
    ensures forall i :: 0 <= i < |page.canvases| ==>
              (page'.initialized[i] <==>
                 page.initialized[i] || exists k :: 0 <= k < |entries| && entries[k] == Entry(i, true))
    ensures FreshlyRegistered(page, page'.active)
    ensures (forall k :: 0 <= k < |entries| && entries[k].isIntersecting ==> page.initialized[entries[k].target]) ==>
              page' == page
  {
    page' := page;
    var n := 0;
    while n < |entries|
      invariant 0 <= n <= |entries|
      invariant Scanned(page, entries, n, page')
    {
      ScanStep(page, entries, n, page');
      page' := Observe(page', entries[n]);
      n := n + 1;
    }
  }

  /** The callback's work for one entry: activate its canvas when it intersects and is not yet initialized. */
  function Observe(page: Page, entry: Entry): (r: Page)
    requires LazyInvariant(page) && entry.target < |page.canvases|
    ensures LazyInvariant(r)
    ensures r.mode == page.mode && r.canvases == page.canvases
    ensures r.initialized == page.initialized[entry.target := page.initialized[entry.target] || entry.isIntersecting]
    ensures |r.active| == |page.active| + (if entry.isIntersecting && !page.initialized[entry.target] then 1 else 0)
    ensures r.active[..|page.active|] == page.active
  {
    if entry.isIntersecting && !page.initialized[entry.target] then Activate(page, entry.target) else page
  }

  /** What the callback has established about `current` after its first `n` entries, starting from `page`. */
  predicate Scanned(page: Page, entries: seq<Entry>, n: nat, current: Page)
    requires LazyInvariant(page) && n <= |entries|
    requires forall k :: 0 <= k < |entries| ==> entries[k].target < |page.canvases|
  {
    && LazyInvariant(current)
    && current.mode == page.mode && current.canvases == page.canvases
    && |page.active| <= |current.active| && current.active[..|page.active|] == page.active
    && (forall i :: 0 <= i < |page.canvases| ==>
          (current.initialized[i] <==>
             page.initialized[i] || exists k :: 0 <= k < n && entries[k] == Entry(i, true)))
    && FreshlyRegistered(page, current.active)
    && ((forall k :: 0 <= k < |entries| && entries[k].isIntersecting ==> page.initialized[entries[k].target]) ==>
          current == page)
  }

  /** Handling entry `n` extends what the callback has established to the first `n + 1` entries. */
  lemma ScanStep(page: Page, entries: seq<Entry>, n: nat, current: Page)
    requires LazyInvariant(page) && n < |entries|
    requires forall k :: 0 <= k < |entries| ==> entries[k].target < |page.canvases|
    requires Scanned(page, entries, n, current)
    ensures Scanned(page, entries, n + 1, Observe(current, entries[n]))
  {
    var entry := entries[n];
    var next := Observe(current, entry);
    if entry.isIntersecting && !current.initialized[entry.target] {
      RegisterFresh(page, current, entry.target);
      assert next.active[..|current.active|] == current.active;
      assert next.active[..|page.active|] == current.active[..|page.active|];
    }
    assert next.initialized ==
             if entry.isIntersecting then current.initialized[entry.target := true] else current.initialized;
    FlagStep(page.initialized, entries, n, current.initialized, next.initialized);
  }

  /** The one-shot flags after entry `n`: raised exactly for the canvases that some entry so far reported intersecting. */
  lemma FlagStep(initial: seq<bool>, entries: seq<Entry>, n: nat, current: seq<bool>, next: seq<bool>)
    requires n < |entries| && |current| == |initial| && entries[n].target < |current|
    requires forall i :: 0 <= i < |initial| ==>
               (current[i] <==> initial[i] || exists k :: 0 <= k < n && entries[k] == Entry(i, true))
    requires next == if entries[n].isIntersecting then current[entries[n].target := true] else current
    ensures |next| == |initial|
    ensures forall i :: 0 <= i < |initial| ==>
              (next[i] <==> initial[i] || exists k :: 0 <= k < n + 1 && entries[k] == Entry(i, true))
  {
    forall i | 0 <= i < |initial|
      ensures next[i] <==> initial[i] || exists k :: 0 <= k < n + 1 && entries[k] == Entry(i, true)
    {
      if entries[n] == Entry(i, true) {
        assert next[i];
      }
      if exists k :: 0 <= k < n + 1 && entries[k] == Entry(i, true) {
        var k :| 0 <= k < n + 1 && entries[k] == Entry(i, true);
        if k < n {
          assert exists k :: 0 <= k < n && entries[k] == Entry(i, true);
        }
      }
    }
  }

  /**
   * Every scrubber registered after `page.active` serves a canvas that was
   * not initialized in `page`, and is exactly the scrubber built from that
   * canvas's attributes and size.
   */
  predicate FreshlyRegistered(page: Page, active: seq<Registered>) {
    forall k :: |page.active| <= k < |active| ==>
      && active[k].element < |page.canvases| && active[k].element < |page.initialized|
      && !page.initialized[active[k].element]
      && page.canvases[active[k].element].count >= 1
      && var c := page.canvases[active[k].element];
         active[k].scrubber == SequenceScrubber(ImageSequence.NewSequence(c.path, c.count, c.view))
  }

  /** Activating one more canvas that `page` had not initialized keeps the new registrations fresh. */
  lemma RegisterFresh(page: Page, current: Page, i: nat)
    requires LazyInvariant(current) && i < |current.canvases| && !current.initialized[i]
    requires current.canvases == page.canvases && i < |page.initialized| && !page.initialized[i]
    requires FreshlyRegistered(page, current.active)
    ensures FreshlyRegistered(page, Activate(current, i).active)
  {
    var after := Activate(current, i).active;
    assert after == current.active + [after[|current.active|]];
  }

  /**
   * One intersecting canvas not yet initialized: flag it, build its
   * scrubber and register it, and `update(0)` it, which draws nothing on a
   * scrubber whose frames have only just been requested.
   */
  function Activate(page: Page, i: nat): (r: Page)
    requires LazyInvariant(page) && i < |page.canvases| && !page.initialized[i]
    ensures LazyInvariant(r)
    ensures var c := page.canvases[i];
            r == page.(initialized := page.initialized[i := true],
                       active := page.active + [Registered(i, SequenceScrubber(ImageSequence.NewSequence(c.path, c.count, c.view)))])
  {
    var canvas := page.canvases[i];
    var built := ImageSequence.NewSequence(canvas.path, canvas.count, canvas.view);
    var first := ImageSequence.Update(built, 0.0);
    SequenceProperties.FreshUpdateDrawsNothing(canvas.path, canvas.count, canvas.view, 0.0);
    var item := Registered(i, SequenceScrubber(first.state));
    Admit(page, i, item);
    page.(initialized := page.initialized[i := true], active := page.active + [item])
  }

  /** Flagging a canvas not yet initialized and registering its new scrubber keeps the invariant. */
  lemma Admit(page: Page, i: nat, item: Registered)
    requires LazyInvariant(page) && i < |page.initialized| && !page.initialized[i]
    requires item.element == i && item.scrubber.SequenceScrubber? && ScrubberValid(item.scrubber)
    requires item.scrubber.sequence.path == page.canvases[i].path
    requires item.scrubber.sequence.count == page.canvases[i].count
    ensures LazyInvariant(page.(initialized := page.initialized[i := true], active := page.active + [item]))
  {
    var page' := page.(initialized := page.initialized[i := true], active := page.active + [item]);
    assert page'.active[|page.active|] == item;
    forall j | 0 <= j < |page'.initialized| && page'.initialized[j]
      ensures Registers(page'.active, j)
    {
      if j != i {
        var k :| 0 <= k < |page.active| && page.active[k].element == j;
        assert page'.active[k].element == j;
      }
    }
    forall k | 0 <= k < |page'.active|
      ensures Serves(page', page'.active[k])
    {
      if k < |page.active| {
        assert Serves(page, page.active[k]);
      }
    }
  }

  /**
   * `new VideoScrubber(video)` for the video with the given index: its
   * registration, and the seek to the start its metadata callback makes
   * when the metadata is already in and the position is off by more than
   * the threshold.
   */
  function Construct(video: VideoElement, element: nat): (r: Visited)
    ensures r.item == Registered(element, VideoScrubber(VideoScrubbing.NewVideo(video.currentTime, video.metadata).state))
    ensures r.effect.Some? <==>
              && video.metadata.Some?
              && VideoScrubbing.Ready(video.metadata.value)
              && VideoScrubbing.Abs(video.currentTime) > VideoScrubbing.SeekThreshold
    ensures r.effect.Some? ==> r.effect.value == Tagged(element, SeekTo(VideoScrubbing.Seek(0.0)))
  {
    var step := VideoScrubbing.NewVideo(video.currentTime, video.metadata);
    Visited(Registered(element, VideoScrubber(step.state)),
            if step.seek.Some? then Some(Tagged(element, SeekTo(step.seek.value))) else None)
  }

  /** The seek slot of every video's construction, in document order. */
  function Constructions(videos: seq<VideoElement>, first: nat): (opts: seq<Option<Tagged>>)
    ensures |opts| == |videos|
    ensures forall k :: 0 <= k < |videos| ==> opts[k] == Construct(videos[k], first + k).effect
  {
    seq(|videos|, k requires 0 <= k < |videos| => Construct(videos[k], first + k).effect)
  }

  lemma ConstructionsTail(videos: seq<VideoElement>, first: nat)
    requires |videos| > 0
    ensures Constructions(videos, first)[1..] == Constructions(videos[1..], first + 1)
  {
  }

  /** Constructs the video scrubbers in document order, collecting the seeks their metadata callbacks make. */
  function RegisterVideos(videos: seq<VideoElement>, first: nat): (r: Tick)
    ensures |r.active| == |videos| && AllValid(r.active)
    ensures forall k :: 0 <= k < |videos| ==> r.active[k] == Construct(videos[k], first + k).item
    ensures r.effects == Present(Constructions(videos, first))
    decreases |videos|
  {
    if |videos| == 0 then Tick([], [])
    else
      var head := Construct(videos[0], first);
      var rest := RegisterVideos(videos[1..], first + 1);
      ConstructionsTail(videos, first);
      var tagged := if head.effect.Some? then [head.effect.value] else [];
      Tick([head.item] + rest.active, tagged + rest.effects)
  }

  datatype Boot = Boot(page: Page, effects: seq<Tagged>)

  /**
   * Page start-up: with reduced motion requested nothing is set up; on a
   * wide screen every video gets a scrubber at once and the scroll handler
   * runs once; on a narrow screen only the lazy observer is installed.
   */
  function Start(reducedMotion: bool, isDesktop: bool, videos: seq<VideoElement>,
                 canvases: seq<CanvasElement>, rects: seq<Rect>, viewport: real): (r: Boot)
    requires CanvasesWellFormed(canvases)
    requires !reducedMotion && isDesktop ==>
               |rects| == |videos| && forall k :: 0 <= k < |rects| ==> Geometry(rects[k], viewport)
    ensures r.page.canvases == canvases
    ensures reducedMotion ==> r.page.mode == Inert && r.page.active == [] && r.effects == []
    ensures !reducedMotion && isDesktop ==>
              var built := RegisterVideos(videos, 0);
              && r.page.mode == Desktop
              && r.page.initialized == seq(|canvases|, _ => false)
              && |r.page.active| == |videos|
              && (forall k :: 0 <= k < |videos| ==>
                    && r.page.active[k].element == k
                    && r.page.active[k] == Visit(Construct(videos[k], k).item, rects[k], viewport).item)
              && r.effects == built.effects + HandleScroll(built.active, rects, viewport).effects
    ensures !reducedMotion && !isDesktop ==>
              r.page.mode == Mobile && r.page.active == [] && r.effects == [] && LazyInvariant(r.page) &&
              forall i :: 0 <= i < |canvases| ==> !r.page.initialized[i]
  {
    var idle := seq(|canvases|, _ => false);
    if reducedMotion then Boot(Page(Inert, canvases, idle, []), [])
    else if isDesktop then
      var built := RegisterVideos(videos, 0);
      var tick := HandleScroll(built.active, rects, viewport);
      Boot(Page(Desktop, canvases, idle, tick.active), built.effects + tick.effects)
    else
      Boot(Page(Mobile, canvases, idle, []), [])
  }
}

=== FILE: frame_names.dfy ===
/**
 * File names of an image sequence's frames: frame `i` (counted from 1) is
 * `<path>/frame_<i>.webp` with `i` written in decimal and padded on the left
 * with zeros to at least three characters.
 */
module FrameNames {

  predicate IsDigit(c: char) { '0' <= c <= '9' }

  predicate AllDigits(s: string) {
    forall k :: 0 <= k < |s| ==> IsDigit(s[k])
  }

  function DigitChar(d: nat): (c: char)
    requires d < 10
    ensures IsDigit(c)
  {
    ['0', '1', '2', '3', '4', '5', '6', '7', '8', '9'][d]
  }

  function DigitValue(c: char): (d: nat)
    requires IsDigit(c)
    ensures d < 10
  {
    (c as int - '0' as int) as nat
  }

  /** `n.toString()` for a non-negative integer. */
  function Decimal(n: nat): (s: string)
    ensures |s| >= 1 && AllDigits(s)
    ensures n < 10 <==> |s| == 1
    decreases n
  {
    if n < 10 then [DigitChar(n)] else Decimal(n / 10) + [DigitChar(n % 10)]
  }

  /** The value of a string of decimal digits; leading zeros add nothing. */
  function DecodeDecimal(s: string): nat
    requires AllDigits(s)
  {
    if |s| == 0 then 0 else DecodeDecimal(s[..|s| - 1]) * 10 + DigitValue(s[|s| - 1])
  }

  /** `s.padStart(width, '0')`: strings already that long are returned unchanged. */
  function PadStart(s: string, width: nat): (r: string)
    ensures |r| == if |s| >= width then |s| else width
    ensures r[|r| - |s|..] == s
    ensures forall k :: 0 <= k < |r| - |s| ==> r[k] == '0'
  {
    if |s| >= width then s else seq(width - |s|, _ => '0') + s
  }

  /** The name of frame `i`, counted from 1, under directory `path`. */
  function FrameName(path: string, i: nat): (name: string)
    ensures |name| >= |path| + 15
    ensures name[..|path| + 7] == path + "/frame_"
    ensures name[|name| - 5..] == ".webp"
  {
    path + "/frame_" + PadStart(Decimal(i), 3) + ".webp"
  }

  lemma {:induction false} DecimalRoundTrip(n: nat)
    ensures DecodeDecimal(Decimal(n)) == n
    decreases n
  {
    var s := Decimal(n);
    if n < 10 {
      assert DigitValue(DigitChar(n)) == n;
    } else {
      DecimalRoundTrip(n / 10);
      assert s[..|s| - 1] == Decimal(n / 10);
      assert DigitValue(DigitChar(n % 10)) == n % 10;
    }
  }

  /** A leading zero does not change a decimal value. */
  lemma {:induction false} LeadingZero(s: string)
    requires AllDigits(s)
    ensures AllDigits(['0'] + s) && DecodeDecimal(['0'] + s) == DecodeDecimal(s)
    decreases |s|
  {
    var z := ['0'] + s;
    if |s| > 0 {
      assert z[..|z| - 1] == ['0'] + s[..|s| - 1];
      LeadingZero(s[..|s| - 1]);
    }
  }

  /** Any number of leading zeros does not change a decimal value. */
  lemma {:induction false} ZerosPrefix(n: nat, s: string)
    requires AllDigits(s)
    ensures AllDigits(seq(n, _ => '0') + s)
    ensures DecodeDecimal(seq(n, _ => '0') + s) == DecodeDecimal(s)
    decreases n
  {
    if n > 0 {
      var shorter := seq(n - 1, _ => '0') + s;
      assert seq(n, _ => '0') + s == ['0'] + shorter;
      ZerosPrefix(n - 1, s);
      LeadingZero(shorter);
    } else {
      assert seq(n, _ => '0') + s == s;
    }
  }

  /** Padding with zeros keeps a string's decimal value. */
  lemma PadKeepsValue(s: string, width: nat)
    requires AllDigits(s)
    ensures AllDigits(PadStart(s, width))
    ensures DecodeDecimal(PadStart(s, width)) == DecodeDecimal(s)
  {
    if |s| < width {
      ZerosPrefix(width - |s|, s);
    }
  }

  /** The numbers 1 to 999 have at most three decimal digits. */
  lemma DecimalShort(n: nat)
    requires n <= 999
    ensures |Decimal(n)| <= 3
  {
  }

  /** The three characters of a frame number between 1 and 999: all digits, read back as `i`. */
  lemma PaddedNumber(i: nat)
    requires 1 <= i <= 999
    ensures var d := PadStart(Decimal(i), 3);
            |d| == 3 && AllDigits(d) && DecodeDecimal(d) == i
  {
    DecimalShort(i);
    DecimalRoundTrip(i);
    PadKeepsValue(Decimal(i), 3);
  }

  /** Frame names of indices 1 to 999 are the path, "/frame_", three digits spelling the index, ".webp". */
  lemma FrameNameShape(path: string, i: nat)
    requires 1 <= i <= 999
    ensures exists d: string ::
              FrameName(path, i) == path + "/frame_" + d + ".webp" &&
              |d| == 3 && AllDigits(d) && DecodeDecimal(d) == i
  {
    PaddedNumber(i);
    var d := PadStart(Decimal(i), 3);
    assert FrameName(path, i) == path + "/frame_" + d + ".webp";
  }

  /** Distinct frame numbers under one path never share a file name. */
  lemma FrameNameInjective(path: string, i: nat, j: nat)
    requires FrameName(path, i) == FrameName(path, j)
    ensures i == j
  {
    var di := PadStart(Decimal(i), 3);
    var dj := PadStart(Decimal(j), 3);
    var pre := path + "/frame_";
    var n := FrameName(path, i);
    assert |di| == |dj|;
    assert n[|pre|..|pre| + |di|] == di;
    assert FrameName(path, j)[|pre|..|pre| + |dj|] == dj;
    PadKeepsValue(Decimal(i), 3);
    PadKeepsValue(Decimal(j), 3);
    DecimalRoundTrip(i);
    DecimalRoundTrip(j);
  }
}

=== FILE: progress.dfy ===
/**
 * The scroll-progress mapping of the page's scroll handler: an element's
 * bounding rectangle and the viewport height give either "skip this element"
 * or a progress value in [0, 1] that is pushed into the element's scrubber.
 */
module ScrollProgress {
  import opened Wrappers
  import RealArith

  /** The part of a bounding client rectangle the handler reads. */
  datatype Rect = Rect(top: real, height: real) {
    function Bottom(): real { top + height }
  }

  /** Geometry as a browser reports it: heights are never negative. */
  predicate Geometry(r: Rect, viewport: real) {
    viewport >= 0.0 && r.height >= 0.0
  }

  /** The visibility gate: an element wholly above or wholly below the viewport is skipped. */
  predicate Visible(r: Rect, viewport: real) {
    !(r.Bottom() < 0.0 || r.top > viewport)
  }

  function Clamp01(x: real): (c: real)
    ensures 0.0 <= c <= 1.0
    ensures 0.0 <= x <= 1.0 ==> c == x
    ensures x < 0.0 ==> c == 0.0
    ensures x > 1.0 ==> c == 1.0
  {
    if 1.0 < x then 1.0 else if x < 0.0 then 0.0 else x
  }

  /**
   * The progress handed to `update`, or None when no update is issued.
   * An element with zero total travel (empty viewport and empty element) makes
   * the source divide 0 by 0; the NaN that results makes both kinds of scrubber
   * ignore the update, so the model treats it as no update.
   */
  function Sample(r: Rect, viewport: real): (p: Option<real>)
    requires Geometry(r, viewport)
    ensures p.Some? ==> 0.0 <= p.value <= 1.0
    ensures p.None? <==> (r.Bottom() < 0.0 || r.top > viewport || viewport + r.height == 0.0)
  {
    if !Visible(r, viewport) then None
    else
      var totalTravel := viewport + r.height;
      if totalTravel == 0.0 then None
      else
        var distanceCovered := viewport - r.top;
        RealArith.RatioInUnit(distanceCovered, totalTravel);
        Some(Clamp01(distanceCovered / totalTravel))
  }

  /** A sample is the fraction of the element's total travel that it has covered. */
  lemma SampleIsTravelFraction(r: Rect, viewport: real)
    requires Geometry(r, viewport)
    ensures Sample(r, viewport).Some? ==>
              Sample(r, viewport).value * (viewport + r.height) == viewport - r.top
  {
    if Sample(r, viewport).Some? {
      var totalTravel := viewport + r.height;
      var distanceCovered := viewport - r.top;
      RealArith.RatioInUnit(distanceCovered, totalTravel);
      assert (distanceCovered / totalTravel) * totalTravel == distanceCovered;
    }
  }

  /** The element's top edge sitting on the viewport's bottom edge gives progress 0. */
  lemma EnteringIsZero(viewport: real, height: real)
    requires viewport >= 0.0 && height >= 0.0 && viewport + height > 0.0
    ensures Sample(Rect(viewport, height), viewport) == Some(0.0)
  {
    SampleIsTravelFraction(Rect(viewport, height), viewport);
    var p := Sample(Rect(viewport, height), viewport).value;
    RealArith.PinnedRatio(p, viewport + height, viewport - viewport);
  }

  /** The element's bottom edge sitting on the viewport's top edge gives progress 1. */
  lemma LeavingIsOne(viewport: real, height: real)
    requires viewport >= 0.0 && height >= 0.0 && viewport + height > 0.0
    ensures Sample(Rect(-height, height), viewport) == Some(1.0)
  {
    var t := viewport + height;
    SampleIsTravelFraction(Rect(-height, height), viewport);
    var p := Sample(Rect(-height, height), viewport).value;
    RealArith.PinnedRatio(p, t, viewport - -height);
  }

  /** Moving the element up the screen never lowers its progress. */
  lemma ProgressMonotone(viewport: real, height: real, top1: real, top2: real)
    requires viewport >= 0.0 && height >= 0.0 && viewport + height > 0.0
    requires -height <= top2 <= top1 <= viewport
    ensures Sample(Rect(top1, height), viewport).Some? && Sample(Rect(top2, height), viewport).Some?
    ensures Sample(Rect(top1, height), viewport).value <= Sample(Rect(top2, height), viewport).value
  {
    var t := viewport + height;
    SampleIsTravelFraction(Rect(top1, height), viewport);
    SampleIsTravelFraction(Rect(top2, height), viewport);
    var p1 := Sample(Rect(top1, height), viewport).value;
    var p2 := Sample(Rect(top2, height), viewport).value;
    RealArith.Cancel(p1, p2, t, viewport - top1, viewport - top2);
  }
}

=== FILE: sequence.dfy ===
/**
 * The image-sequence scrubber: a canvas, a numbered set of frames that load
 * asynchronously, and the frame last drawn. Every operation is a step
 * function returning the new state and the draw it performs, if any.
 */
module ImageSequence {
  import opened Wrappers
  import opened CoverFit
  import FrameNames
  import RealArith

  /** A frame's image: still loading, decoded with its natural size, or failed. */
  datatype Frame = Pending | Loaded(width: nat, height: nat) | Failed {
    /** The image element's `complete` flag: true once loading has ended, either way. */
    predicate Complete() { !Pending? }
    /** `complete && naturalWidth > 0`: only a decoded frame can be drawn. */
    predicate Drawable() { Loaded? }
  }

  /** The canvas's client size in CSS pixels. */
  datatype View = View(width: nat, height: nat)

  /**
   * The scrubber's fields: the frame directory and count, the requested
   * file names, each frame's image, the completion counter and flag, the
   * index of the frame on the canvas (-1 before the first draw), and the
   * canvas size.
   */
  datatype Sequence = Sequence(
    path: string,
    count: nat,
    sources: seq<string>,
    frames: seq<Frame>,
    loadedCount: nat,
    isLoaded: bool,
    currentFrame: int,
    view: View)

  /** A call of `draw(img)` for frame `frame`; `placement` is None when the canvas has no area. */
  datatype Draw = Draw(frame: nat, placement: Option<Placement>)

  datatype Step = Step(state: Sequence, draw: Option<Draw>)

  /** How the browser ends a frame's load: `onload` with the decoded size, or `onerror`. */
  datatype Outcome = Decoded(width: nat, height: nat) | Errored

  /** The number of frames whose load has ended, successfully or not. */
  function ResolvedCount(frames: seq<Frame>): (n: nat)
    ensures n <= |frames|
  {
    if |frames| == 0 then 0
    else ResolvedCount(frames[..|frames| - 1]) + (if frames[|frames| - 1].Complete() then 1 else 0)
  }

  /**
   * The shape every state has: frames and names line up with the count, the
   * drawn frame is decoded. The names themselves are fixed at construction
   * (`NewSequenceNames`) and no event changes them (`RequestsNeverChange`).
   */
  predicate Shaped(s: Sequence) {
    && s.count >= 1
    && |s.frames| == s.count
    && |s.sources| == s.count
    && (forall k :: 0 <= k < |s.frames| && s.frames[k].Loaded? ==>
          s.frames[k].width > 0 && s.frames[k].height > 0)
    && -1 <= s.currentFrame < s.count
    && (s.currentFrame >= 0 ==> s.frames[s.currentFrame].Drawable())
  }

  /** The scrubber's invariant: its shape, plus the counter and flag agreeing with the frames. */
  predicate Valid(s: Sequence) {
    && Shaped(s)
    && s.loadedCount == ResolvedCount(s.frames)
    && (s.isLoaded <==> s.loadedCount == s.count)
  }

  /** `floor(progress * (count - 1))` clamped to a frame index. */
  function FrameIndex(progress: real, count: nat): (i: nat)
    requires count >= 1
    ensures i < count
    ensures progress <= 0.0 ==> i == 0
    ensures progress >= 1.0 ==> i == count - 1
  {
    var raw := (progress * (count - 1) as real).Floor;
    FloorScaled(progress, count - 1);
    if raw < 0 then 0 else if raw > count - 1 then count - 1 else raw
  }

  /** For progress in [0, 1] the clamp is inert: the index is the floor of `progress * (count - 1)`. */
  lemma FrameIndexIsFloor(progress: real, count: nat)
    requires count >= 1 && 0.0 <= progress <= 1.0
    ensures var i := FrameIndex(progress, count);
            i as real <= progress * (count - 1) as real < i as real + 1.0
  {
    FloorScaled(progress, count - 1);
  }

  lemma FloorScaled(p: real, n: nat)
    ensures p <= 0.0 ==> (p * n as real).Floor <= 0
    ensures p >= 1.0 ==> (p * n as real).Floor >= n
    ensures 0.0 <= p <= 1.0 ==> 0 <= (p * n as real).Floor <= n
  {
    var N := n as real;
    var x := p * N;
    if p <= 0.0 {
      RealArith.MulMonotone(p, 0.0, N, x, 0.0);
      RealArith.FloorAtMost(x, 0);
    }
    if p >= 1.0 {
      RealArith.MulMonotone(1.0, p, N, N, x);
      RealArith.FloorAtLeast(x, n);
    }
    if 0.0 <= p <= 1.0 {
      RealArith.MulMonotone(0.0, p, N, 0.0, x);
      RealArith.FloorAtLeast(x, 0);
      RealArith.MulMonotone(p, 1.0, N, x, N);
      RealArith.FloorAtMost(x, n);
    }
  }

  /** The placement `draw` computes for a decoded frame on a canvas of the given size. */
  function Paint(view: View, f: Frame): (p: Option<Placement>)
    requires f.Loaded? && f.width > 0 && f.height > 0
    ensures p.None? <==> view.width == 0 || view.height == 0
    ensures p.Some? ==> Covers(p.value, view.width, view.height, f.width, f.height)
  {
    Cover(view.width, view.height, f.width, f.height)
  }

  /**
   * `update(progress)`: draw the frame the progress selects, but only when
   * that frame is decoded and is not the one already on the canvas.
   */
  function Update(s: Sequence, progress: real): (r: Step)
    requires Shaped(s)
    ensures Shaped(r.state)
    ensures Valid(s) ==> Valid(r.state)
    ensures var i := FrameIndex(progress, s.count);
            r.draw.Some? <==> s.frames[i].Drawable() && i != s.currentFrame
    ensures r.draw.Some? ==>
              var i := FrameIndex(progress, s.count);
              && r.state == s.(currentFrame := i)
              && r.draw.value == Draw(i, Paint(s.view, s.frames[i]))
    ensures r.draw.None? ==> r.state == s
  {
    var i := FrameIndex(progress, s.count);
    var img := s.frames[i];
    if img.Drawable() && i != s.currentFrame then
      Step(s.(currentFrame := i), Some(Draw(i, Paint(s.view, img))))
    else
      Step(s, None)
  }

  /**
   * `resize()` with the canvas's new size: redraw the frame on the canvas, if
   * there is one and its image is complete. Backing-store scaling by the
   * device pixel ratio is not modelled.
   */
  function Resize(s: Sequence, view: View): (r: Step)
    requires Shaped(s)
    ensures r.state == s.(view := view)
    ensures r.draw.Some? <==> s.currentFrame >= 0
    ensures r.draw.Some? ==>
              r.draw.value == Draw(s.currentFrame, Paint(view, s.frames[s.currentFrame]))
  {
    var s' := s.(view := view);
    if s.currentFrame >= 0 && s.frames[s.currentFrame].Complete() then
      Step(s', Some(Draw(s.currentFrame, Paint(view, s.frames[s.currentFrame]))))
    else
      Step(s', None)
  }

  /** The browser's side of a load event: frame `i` exists, is still loading, and decodes to a non-empty image. */
  predicate CanResolve(s: Sequence, i: nat, outcome: Outcome) {
    && i < |s.frames|
    && s.frames[i].Pending?
    && (outcome.Decoded? ==> outcome.width > 0 && outcome.height > 0)
  }

  /**
   * The `onload` / `onerror` handler of frame `i` (0-based here, 1-based in
   * its file name): count the frame as resolved, draw at progress 0 when the
   * first frame has decoded, and raise the completion flag when the counter
   * reaches the frame count.
   */
  function Resolve(s: Sequence, i: nat, outcome: Outcome): (r: Step)
    requires Valid(s) && CanResolve(s, i, outcome)
    ensures Valid(r.state)
    ensures r.state.loadedCount == s.loadedCount + 1
    ensures r.state.frames == s.frames[i := if outcome.Decoded? then Loaded(outcome.width, outcome.height) else Failed]
    ensures r.state.path == s.path && r.state.count == s.count
    ensures r.state.sources == s.sources && r.state.view == s.view
    ensures r.draw.Some? <==> outcome.Decoded? && i == 0 && s.currentFrame != 0
    ensures r.draw.Some? ==> r.draw.value.frame == 0 && r.state.currentFrame == 0
    ensures r.draw.Some? ==>
              r.state.frames[0].Loaded? && r.draw.value == Draw(0, Paint(s.view, r.state.frames[0]))
    ensures r.draw.None? ==> r.state.currentFrame == s.currentFrame
  {
    ResolveOne(s.frames, i, if outcome.Decoded? then Loaded(outcome.width, outcome.height) else Failed);
    match outcome
    case Decoded(w, h) =>
      var s1 := s.(frames := s.frames[i := Loaded(w, h)], loadedCount := s.loadedCount + 1);
      var step := if i == 0 then Update(s1, 0.0) else Step(s1, None);
      var t := step.state;
      Step(t.(isLoaded := if t.loadedCount == t.count then true else t.isLoaded), step.draw)
    case Errored =>
      var t := s.(frames := s.frames[i := Failed], loadedCount := s.loadedCount + 1);
      Step(t.(isLoaded := if t.loadedCount == t.count then true else t.isLoaded), None)
  }

  /** Ending the load of one pending frame adds exactly one to the resolved count. */
  lemma {:induction false} ResolveOne(frames: seq<Frame>, i: nat, f: Frame)
    requires i < |frames| && frames[i].Pending? && f.Complete()
    ensures ResolvedCount(frames[i := f]) == ResolvedCount(frames) + 1
    decreases |frames|
  {
    var last := |frames| - 1;
    var frames' := frames[i := f];
    if i == last {
      assert frames'[..last] == frames[..last];
    } else {
      assert frames'[..last] == frames[..last][i := f];
      ResolveOne(frames[..last], i, f);
    }
  }

  /** The names `loadImages` requests, one per iteration of its loop over frames `1..n`, in order. */
  function FrameRequests(path: string, n: nat): (names: seq<string>)
    ensures |names| == n
  {
    seq(n, k requires 0 <= k < n => FrameNames.FrameName(path, k + 1))
  }

  /** No frame of a freshly requested set has ended its load. */
  lemma {:induction false} NoneResolved(n: nat)
    ensures ResolvedCount(seq(n, _ => Pending)) == 0
  {
    if n > 0 {
      assert seq(n, _ => Pending)[..n - 1] == seq(n - 1, _ => Pending);
      NoneResolved(n - 1);
    }
  }

  /**
   * The constructor: read the frame directory and count, size the canvas
   * (nothing is on it yet, so nothing is redrawn), and request every frame
   * `1..count` by name.
   */
  function NewSequence(path: string, count: nat, view: View): (s: Sequence)
    requires count >= 1
    ensures Valid(s)
    ensures s.path == path && s.count == count && s.view == view
    ensures s.sources == FrameRequests(path, count)
    ensures forall k :: 0 <= k < count ==> s.frames[k] == Pending
    ensures s.loadedCount == 0 && !s.isLoaded && s.currentFrame == -1
  {
    NoneResolved(count);
    Sequence(path, count, FrameRequests(path, count), seq(count, _ => Pending), 0, false, -1, view)
  }

  /** The constructor requests frame `k + 1` as its `k`-th image. */
  lemma NewSequenceNames(path: string, count: nat, view: View)
    requires count >= 1
    ensures var s := NewSequence(path, count, view);
            forall k :: 0 <= k < count ==> s.sources[k] == FrameNames.FrameName(path, k + 1)
  {
  }
}

=== FILE: sequence_properties.dfy ===
/**
 * Properties of the image-sequence scrubber over whole runs of events:
 * loading bookkeeping, frames that fail stay undrawable, redraw
 * de-duplication, and the number of draws during a one-way scroll.
 */
module SequenceProperties {
  import opened Wrappers
  import opened ImageSequence
  import RealArith

  /** What the browser can deliver to a scrubber. */
  datatype Event =
    | Scrolled(progress: real)
    | Resized(view: View)
    | FrameLoaded(index: nat, width: nat, height: nat)
    | FrameFailed(index: nat)

  /** An event the browser can actually deliver in state `s`: each frame's load ends once. */
  predicate Enabled(s: Sequence, e: Event) {
    match e
    case FrameLoaded(i, w, h) => CanResolve(s, i, Decoded(w, h))
    case FrameFailed(i) => CanResolve(s, i, Errored)
    case _ => true
  }

  function Apply(s: Sequence, e: Event): (r: Step)
    requires Valid(s) && Enabled(s, e)
    ensures Valid(r.state)
    ensures r.state.count == s.count && r.state.path == s.path && r.state.sources == s.sources
  {
    match e
    case Scrolled(p) => Update(s, p)
    case Resized(v) => Resize(s, v)
    case FrameLoaded(i, w, h) => Resolve(s, i, Decoded(w, h))
    case FrameFailed(i) => Resolve(s, i, Errored)
  }

  /** A sequence of events each enabled in the state the previous ones leave. */
  predicate Admissible(s: Sequence, events: seq<Event>)
    requires Valid(s)
    decreases |events|
  {
    |events| == 0 ||
    (Enabled(s, events[0]) && Admissible(Apply(s, events[0]).state, events[1..]))
  }

  datatype Trace = Trace(state: Sequence, draws: seq<Draw>)

  /** The state after the events, and every draw they performed, in order. */
  function Run(s: Sequence, events: seq<Event>): (t: Trace)
    requires Valid(s) && Admissible(s, events)
    ensures Valid(t.state) && t.state.count == s.count
    decreases |events|
  {
    if |events| == 0 then Trace(s, [])
    else
      var step := Apply(s, events[0]);
      var rest := Run(step.state, events[1..]);
      Trace(rest.state, (if step.draw.Some? then [step.draw.value] else []) + rest.draws)
  }

  /** No event renames a frame: the requested names stay those the constructor chose. */
  lemma {:induction false} RequestsNeverChange(s: Sequence, events: seq<Event>)
    requires Valid(s) && Admissible(s, events)
    ensures Run(s, events).state.path == s.path && Run(s, events).state.sources == s.sources
    decreases |events|
  {
    if |events| > 0 {
      RequestsNeverChange(Apply(s, events[0]).state, events[1..]);
    }
  }

  /** An event that ends the load of frame `i`. */
  predicate Resolves(e: Event, i: nat) {
    (e.FrameLoaded? && e.index == i) || (e.FrameFailed? && e.index == i)
  }

  /** The number of load-ending events (successes and failures alike). */
  function EndedLoads(events: seq<Event>): nat {
    if |events| == 0 then 0
    else (if events[0].FrameLoaded? || events[0].FrameFailed? then 1 else 0) + EndedLoads(events[1..])
  }

  /** The counter rises by one for every ended load, whether the frame decoded or failed, and for nothing else. */
  lemma {:induction false} CounterCountsEndedLoads(s: Sequence, events: seq<Event>)
    requires Valid(s) && Admissible(s, events)
    ensures Run(s, events).state.loadedCount == s.loadedCount + EndedLoads(events)
    decreases |events|
  {
    if |events| > 0 {
      CounterCountsEndedLoads(Apply(s, events[0]).state, events[1..]);
    }
  }

  /** One event never un-ends a load, and never changes a frame whose load has ended. */
  lemma EndedFrameStable(s: Sequence, e: Event, i: nat)
    requires Valid(s) && Enabled(s, e) && i < s.count && s.frames[i].Complete()
    ensures Apply(s, e).state.frames[i] == s.frames[i]
  {
  }

  /** A frame whose load has ended keeps its status through any run of events. */
  lemma {:induction false} EndedFrameStaysEnded(s: Sequence, events: seq<Event>, i: nat)
    requires Valid(s) && Admissible(s, events) && i < s.count && s.frames[i].Complete()
    ensures Run(s, events).state.frames[i] == s.frames[i]
    decreases |events|
  {
    if |events| > 0 {
      EndedFrameStable(s, events[0], i);
      EndedFrameStaysEnded(Apply(s, events[0]).state, events[1..], i);
    }
  }

  /** A frame whose load ends somewhere in a run has ended by the run's end. */
  lemma {:induction false} ResolvedFrameEnded(s: Sequence, events: seq<Event>, k: nat, i: nat)
    requires Valid(s) && Admissible(s, events)
    requires k < |events| && Resolves(events[k], i)
    ensures i < s.count && Run(s, events).state.frames[i].Complete()
    decreases |events|
  {
    var next := Apply(s, events[0]).state;
    if k == 0 {
      assert next.frames[i].Complete();
      EndedFrameStaysEnded(next, events[1..], i);
    } else {
      ResolvedFrameEnded(next, events[1..], k - 1, i);
    }
  }

  /** When every frame has ended its load, the resolved count is the frame count. */
  lemma {:induction false} AllEndedCount(frames: seq<Frame>)
    requires forall k :: 0 <= k < |frames| ==> frames[k].Complete()
    ensures ResolvedCount(frames) == |frames|
    decreases |frames|
  {
    if |frames| > 0 {
      AllEndedCount(frames[..|frames| - 1]);
    }
  }

  /** A pending frame keeps the resolved count below the frame count. */
  lemma {:induction false} PendingKeepsCountShort(frames: seq<Frame>, i: nat)
    requires i < |frames| && frames[i].Pending?
    ensures ResolvedCount(frames) < |frames|
    decreases |frames|
  {
    var last := |frames| - 1;
    if i < last {
      PendingKeepsCountShort(frames[..last], i);
    }
  }

  /**
   * The scrubber is marked fully loaded exactly when no frame is still
   * loading, so failed frames count toward completion like decoded ones.
   */
  lemma IsLoadedIffNonePending(s: Sequence)
    requires Valid(s)
    ensures s.isLoaded <==> forall k :: 0 <= k < s.count ==> s.frames[k].Complete()
  {
    if forall k :: 0 <= k < s.count ==> s.frames[k].Complete() {
      AllEndedCount(s.frames);
    } else {
      var i :| 0 <= i < s.count && !s.frames[i].Complete();
      PendingKeepsCountShort(s.frames, i);
    }
  }

  /** Once every frame's load has ended in a run, success or failure, the scrubber is fully loaded. */
  lemma {:induction false} AllEndedMeansLoaded(s: Sequence, events: seq<Event>)
    requires Valid(s) && Admissible(s, events)
    requires forall i :: 0 <= i < s.count ==>
               s.frames[i].Complete() || exists k :: 0 <= k < |events| && Resolves(events[k], i)
    ensures Run(s, events).state.isLoaded
  {
    var t := Run(s, events).state;
    forall i | 0 <= i < s.count
      ensures t.frames[i].Complete()
    {
      if s.frames[i].Complete() {
        EndedFrameStaysEnded(s, events, i);
      } else {
        var k :| 0 <= k < |events| && Resolves(events[k], i);
        ResolvedFrameEnded(s, events, k, i);
      }
    }
    IsLoadedIffNonePending(t);
  }

  /** Every draw of a step shows a frame that is decoded in the state the step leaves. */
  lemma DrawIsDecoded(s: Sequence, e: Event)
    requires Valid(s) && Enabled(s, e)
    ensures var r := Apply(s, e);
            r.draw.Some? ==> r.draw.value.frame < s.count && r.state.frames[r.draw.value.frame].Drawable()
  {
  }

  /** A frame that failed to load is never drawn afterwards, whatever events follow. */
  lemma {:induction false} FailedNeverDrawn(s: Sequence, events: seq<Event>, i: nat)
    requires Valid(s) && Admissible(s, events) && i < s.count && s.frames[i].Failed?
    ensures forall d :: d in Run(s, events).draws ==> d.frame != i
    ensures Run(s, events).state.frames[i].Failed?
    decreases |events|
  {
    if |events| > 0 {
      var step := Apply(s, events[0]);
      DrawIsDecoded(s, events[0]);
      EndedFrameStable(s, events[0], i);
      FailedNeverDrawn(step.state, events[1..], i);
    }
  }

  /** Calling `update` twice with the same progress draws at most once: the second call finds the frame on the canvas. */
  lemma UpdateTwiceDrawsOnce(s: Sequence, progress: real)
    requires Shaped(s)
    ensures var first := Update(s, progress);
            var second := Update(first.state, progress);
            second.draw.None? && second.state == first.state
  {
  }

  /** Resizing twice to the same size leaves the state of a single resize and repeats the same draw. */
  lemma ResizeIdempotent(s: Sequence, view: View)
    requires Shaped(s)
    ensures Resize(Resize(s, view).state, view) == Resize(s, view)
  {
  }

  /** A larger progress never selects an earlier frame. */
  lemma FrameIndexMonotone(p1: real, p2: real, count: nat)
    requires count >= 1 && p1 <= p2
    ensures FrameIndex(p1, count) <= FrameIndex(p2, count)
  {
    var n := (count - 1) as real;
    RealArith.MulMonotone(p1, p2, n, p1 * n, p2 * n);
    RealArith.FloorMonotone(p1 * n, p2 * n);
  }

  /** A single-frame sequence always shows frame 0: the zero divisor `count - 1` never selects another. */
  lemma SingleFrameIndex(progress: real)
    ensures FrameIndex(progress, 1) == 0
  {
  }

  /** Ten frames at progress 0.55 select frame floor(0.55 * 9) = 4. */
  lemma TenFramesExample()
    ensures FrameIndex(0.55, 10) == 4
  {
  }

  /** `update` for each progress in turn: consecutive scroll ticks reaching one scrubber. */
  function Sweep(s: Sequence, progresses: seq<real>): (t: Trace)
    requires Shaped(s)
    ensures Shaped(t.state)
    decreases |progresses|
  {
    if |progresses| == 0 then Trace(s, [])
    else
      var step := Update(s, progresses[0]);
      var rest := Sweep(step.state, progresses[1..]);
      Trace(rest.state, (if step.draw.Some? then [step.draw.value] else []) + rest.draws)
  }

  predicate NonDecreasing(xs: seq<real>) {
    forall a, b :: 0 <= a < b < |xs| ==> xs[a] <= xs[b]
  }

  predicate StrictlyIncreasing(ds: seq<Draw>) {
    forall a, b :: 0 <= a < b < |ds| ==> ds[a].frame < ds[b].frame
  }

  /** Every frame of `ds` lies between `lo` and the frame count. */
  predicate FramesWithin(ds: seq<Draw>, lo: nat, count: nat) {
    forall k :: 0 <= k < |ds| ==> lo <= ds[k].frame < count
  }

  /** The shape of the draws of a one-way scroll starting from `s`. */
  predicate SweepShaped(s: Sequence, ps: seq<real>, ds: seq<Draw>)
    requires Shaped(s) && |ps| > 0
  {
    && StrictlyIncreasing(ds)
    && FramesWithin(ds, FrameIndex(ps[0], s.count), s.count)
    && (|ds| > 0 ==> ds[0].frame != s.currentFrame)
  }

  /**
   * During a one-way scroll the frames drawn strictly increase, none is below
   * the first progress's frame, and the first differs from the frame already shown.
   */
  lemma {:induction false} SweepShape(s: Sequence, ps: seq<real>)
    requires Shaped(s) && NonDecreasing(ps) && |ps| > 0
    ensures SweepShaped(s, ps, Sweep(s, ps).draws)
    decreases |ps|, 1
  {
    if Update(s, ps[0]).draw.None? {
      SweepSkip(s, ps);
    } else {
      SweepDraw(s, ps);
    }
  }

  /** A tick that draws nothing leaves the shape to the rest of the scroll. */
  lemma {:induction false} SweepSkip(s: Sequence, ps: seq<real>)
    requires Shaped(s) && NonDecreasing(ps) && |ps| > 0 && Update(s, ps[0]).draw.None?
    ensures SweepShaped(s, ps, Sweep(s, ps).draws)
    decreases |ps|, 0
  {
    var tail := ps[1..];
    var ds := Sweep(s, ps).draws;
    assert Update(s, ps[0]).state == s;
    assert ds == Sweep(s, tail).draws;
    if |tail| > 0 {
      SweepShape(s, tail);
      FrameIndexMonotone(ps[0], tail[0], s.count);
    }
  }

  /** A tick that draws puts the lowest frame of the scroll first. */
  lemma {:induction false} SweepDraw(s: Sequence, ps: seq<real>)
    requires Shaped(s) && NonDecreasing(ps) && |ps| > 0 && Update(s, ps[0]).draw.Some?
    ensures SweepShaped(s, ps, Sweep(s, ps).draws)
    decreases |ps|, 0
  {
    var step := Update(s, ps[0]);
    var tail := ps[1..];
    var rest := Sweep(step.state, tail);
    var d := step.draw.value;
    var lo := FrameIndex(ps[0], s.count);
    assert Sweep(s, ps).draws == [d] + rest.draws;
    assert d.frame == lo == step.state.currentFrame && lo != s.currentFrame;
    if |tail| > 0 {
      SweepShape(step.state, tail);
      FrameIndexMonotone(ps[0], tail[0], s.count);
      PrependIncreasing(d, rest.draws);
    }
  }

  /** A draw below every frame of an increasing run extends it. */
  lemma PrependIncreasing(d: Draw, ds: seq<Draw>)
    requires StrictlyIncreasing(ds)
    requires |ds| > 0 ==> d.frame < ds[0].frame
    ensures StrictlyIncreasing([d] + ds)
  {
  }

  /** A strictly increasing run of frames below `count` has at most `count` entries. */
  lemma {:induction false} IncreasingFramesBounded(ds: seq<Draw>, count: nat)
    requires StrictlyIncreasing(ds)
    requires forall k :: 0 <= k < |ds| ==> ds[k].frame < count
    ensures |ds| <= count
    decreases |ds|
  {
    if |ds| > 0 {
      var init := ds[..|ds| - 1];
      var top := ds[|ds| - 1].frame;
      IncreasingFramesBounded(init, top);
    }
  }

  /** A one-way scroll draws each frame at most once, so never more than `count` times in all. */
  lemma {:induction false} SweepDrawsAtMostCount(s: Sequence, ps: seq<real>)
    requires Shaped(s) && NonDecreasing(ps)
    ensures |Sweep(s, ps).draws| <= s.count
  {
    if |ps| > 0 {
      SweepShape(s, ps);
      IncreasingFramesBounded(Sweep(s, ps).draws, s.count);
    }
  }

  /**
   * Load events during the scroll lift that bound: the first frame's load
   * handler runs `update(0)`, which puts frame 0 back on the canvas after the
   * scroll has moved past it. Three frames, a one-way scroll, four draws.
   */
  lemma LateFirstFrameRedraws(s: Sequence)
    requires Valid(s) && s.count == 3 && s.currentFrame == -1
    requires s.frames[0].Pending? && s.frames[1] == Loaded(1, 1) && s.frames[2] == Loaded(1, 1)
    ensures var a := Update(s, 0.5);
            var b := Resolve(a.state, 0, Decoded(1, 1));
            var c := Update(b.state, 0.6);
            var d := Update(c.state, 1.0);
            && a.draw.Some? && a.draw.value.frame == 1
            && b.draw.Some? && b.draw.value.frame == 0
            && c.draw.Some? && c.draw.value.frame == 1
            && d.draw.Some? && d.draw.value.frame == 2
  {
    assert FrameIndex(0.5, 3) == 1 && FrameIndex(0.6, 3) == 1 && FrameIndex(1.0, 3) == 2;
  }

  /** The state `LateFirstFrameRedraws` starts from is reached when frames 2 and 3 load before frame 1. */
  lemma LateFirstFrameReachable(path: string, view: View)
    ensures var s0 := NewSequence(path, 3, view);
            var s1 := Resolve(s0, 1, Decoded(1, 1));
            var s2 := Resolve(s1.state, 2, Decoded(1, 1));
            && s1.draw.None? && s2.draw.None?
            && s2.state.currentFrame == -1 && s2.state.frames[0].Pending?
            && s2.state.frames[1] == Loaded(1, 1) && s2.state.frames[2] == Loaded(1, 1)
  {
  }

  /** The initial `update(0)` right after construction draws nothing: no frame has decoded yet. */
  lemma FreshUpdateDrawsNothing(path: string, count: nat, view: View, progress: real)
    requires count >= 1
    ensures var s := NewSequence(path, count, view);
            Update(s, progress) == Step(s, None)
  {
  }
}

=== FILE: video.dfy ===
/**
 * The video scrubber: it holds the duration it learnt from the media
 * element's metadata and seeks the element's playback position to
 * `duration * progress`, skipping seeks smaller than a fixed threshold.
 */
module VideoScrubbing {
  import opened Wrappers

  /** Seeks that would move the playback position by no more than this many seconds are skipped. */
  const SeekThreshold: real := 0.05

  /** A media duration as the element reports it: NaN before metadata, +Infinity for a live stream. */
  datatype Duration = Seconds(value: real) | NotANumber | PosInfinity

  /**
   * The scrubber's readiness test: the duration is truthy (not 0, not NaN) and finite.
   * A media element never reports a negative duration, so in practice this means positive.
   */
  predicate Ready(d: Duration) {
    d.Seconds? && d.value != 0.0
  }

  /** The scrubber's stored duration and the element's current playback position. */
  datatype Video = Video(duration: Duration, currentTime: real)

  /** The one effect an update can have: assigning the element's `currentTime`. */
  datatype Seek = Seek(time: real)

  datatype VideoStep = VideoStep(state: Video, seek: Option<Seek>)

  function Abs(x: real): real { if x < 0.0 then -x else x }

  /** The playback position that `progress` asks for. */
  function Target(v: Video, progress: real): real
    requires v.duration.Seconds?
  {
    v.duration.value * progress
  }

  /** `update(progress)`: seek only when ready and when the position is more than the threshold away. */
  function Update(v: Video, progress: real): (r: VideoStep)
    ensures r.state.duration == v.duration
    ensures !Ready(v.duration) ==> r == VideoStep(v, None)
    ensures Ready(v.duration) ==>
              (r.seek.Some? <==> Abs(v.currentTime - Target(v, progress)) > SeekThreshold)
    ensures r.seek.Some? ==> r.state.currentTime == r.seek.value.time == Target(v, progress)
    ensures r.seek.None? ==> r.state == v
    ensures Ready(v.duration) ==> Abs(r.state.currentTime - Target(v, progress)) <= SeekThreshold
  {
    if Ready(v.duration) then
      var time := v.duration.value * progress;
      if Abs(v.currentTime - time) > SeekThreshold then
        VideoStep(v.(currentTime := time), Some(Seek(time)))
      else
        VideoStep(v, None)
    else
      VideoStep(v, None)
  }

  /** The metadata callback: store the element's duration, then `update(0)`. */
  function OnMetadata(v: Video, d: Duration): (r: VideoStep)
    ensures r.state.duration == d
    ensures r.seek.Some? <==> Ready(d) && Abs(v.currentTime) > SeekThreshold
    ensures r.seek.Some? ==> r.seek.value.time == 0.0 && r.state.currentTime == 0.0
    ensures r.seek.None? ==> r.state.currentTime == v.currentTime
  {
    Update(v.(duration := d), 0.0)
  }

  /**
   * Construction: the duration starts at 0; when the element already has its
   * metadata (`readyState >= 1`) the metadata callback runs at once, otherwise
   * the scrubber waits for it. The `load()` call that starts that wait is
   * not modelled here.
   */
  function NewVideo(currentTime: real, metadata: Option<Duration>): (r: VideoStep)
    ensures metadata.None? ==> r == VideoStep(Video(Seconds(0.0), currentTime), None)
    ensures metadata.Some? ==> r == OnMetadata(Video(Seconds(0.0), currentTime), metadata.value)
    ensures metadata.Some? ==> r.state.duration == metadata.value
    ensures r.seek.Some? <==> metadata.Some? && Ready(metadata.value) && Abs(currentTime) > SeekThreshold
    ensures r.seek.Some? ==> r.seek.value == Seek(0.0) && r.state.currentTime == 0.0
    ensures r.seek.None? ==> r.state.currentTime == currentTime
    ensures !Ready(r.state.duration) ==> r.seek.None?
  {
    var v := Video(Seconds(0.0), currentTime);
    match metadata
    case None => VideoStep(v, None)
    case Some(d) => OnMetadata(v, d)
  }

  /** Until metadata arrives every update is inert, whatever the progress. */
  lemma BeforeMetadataInert(currentTime: real, progress: real)
    ensures var v := NewVideo(currentTime, None).state;
            Update(v, progress) == VideoStep(v, None)
  {
  }

  /** Two updates with the same progress seek at most once: the second finds the position settled. */
  lemma UpdateIdempotent(v: Video, progress: real)
    ensures var first := Update(v, progress);
            var second := Update(first.state, progress);
            second.seek.None? && second.state == first.state
  {
  }
}

=== FILE: wrappers.dfy ===
/** Optional values, used for effects that a step may or may not emit. */
module Wrappers {

  datatype Option<+T> = None | Some(value: T)

  /** The values of the options that are present, in their order. */
  function Present<T>(opts: seq<Option<T>>): (r: seq<T>)
    ensures |r| <= |opts|
  {
    if |opts| == 0 then []
    else (if opts[0].Some? then [opts[0].value] else []) + Present(opts[1..])
  }

  /** `Present` keeps exactly the values of the present options: nothing is lost and nothing is invented. */
  lemma {:induction false} PresentMembers<T>(opts: seq<Option<T>>)
    ensures forall k :: 0 <= k < |Present(opts)| ==> Some(Present(opts)[k]) in opts
    ensures forall k :: 0 <= k < |opts| && opts[k].Some? ==> opts[k].value in Present(opts)
  {
    if |opts| > 0 {
      PresentMembers(opts[1..]);
      assert opts == [opts[0]] + opts[1..];
      var head := if opts[0].Some? then [opts[0].value] else [];
      var r := Present(opts);
      assert r == head + Present(opts[1..]);
      forall k | 0 <= k < |r|
        ensures Some(r[k]) in opts
      {
        if k >= |head| {
          assert r[k] == Present(opts[1..])[k - |head|];
        }
      }
      forall k | 0 <= k < |opts| && opts[k].Some?
        ensures opts[k].value in r
      {
        if k > 0 {
          assert opts[k] == opts[1..][k - 1];
        }
      }
    }
  }

  /** With no option present there is nothing to keep. */
  lemma {:induction false} PresentOfNothing<T>(opts: seq<Option<T>>)
    requires forall k :: 0 <= k < |opts| ==> opts[k].None?
    ensures Present(opts) == []
  {
    if |opts| > 0 {
      assert forall k :: 0 <= k < |opts| - 1 ==> opts[1..][k] == opts[k + 1];
      PresentOfNothing(opts[1..]);
    }
  }
}
